=== FILE: README.md ===
# User-record service: a Dafny model

This project models the user service of a small AWS Lambda application. The
service keeps one kind of record, a user identified by its email, in a
DynamoDB table. The model covers its five operations: fetch one, fetch all,
create, update and delete. It also covers the HTTP handlers that turn each
outcome into a status code and a response body.

The model is functional. Each operation is a pure function. It takes the
table, a record of which store calls fail, and the request input, and it
returns the outcome together with the table it leaves behind.

- `UserTypes` (`user_types.dfy`): the `User` record, the eight error
  constants with their fixed messages, `Result`, and the `Faults` record.
  `Faults` has one flag per collaborator call of the service: the store
  calls GetItem, PutItem, Scan and DeleteItem, and the library calls that
  unmarshal a fetched item or scan and marshal a record. The four store
  flags follow the error fields of the mock client at
  `pkg/user/user_test.go:13-21`; the two library flags have no counterpart
  there.
- `Store` (`store.dfy`): an in-memory table. It holds the records keyed by
  email and the order in which a scan returns them. It has Get, Put, Scan and
  Delete. Its invariant `Valid` says three things:
  - the scan order lists every key once;
  - the scan order holds exactly the stored keys;
  - every record is stored under its own email.
- `UserService` (`user_service.dfy`): the operations of `pkg/user/user.go`,
  plus lemmas that relate several calls.
- `Handlers` (`handlers.dfy`): the handlers of `pkg/handlers/handlers.go`.

Collaborators the model does not see become parameters:

- The JSON decoding of a request body is an `Option<User>`: the decoder's
  verdict, `None` when the body does not decode.
- The email validator is an arbitrary predicate `valid: string -> bool`.

## Model

| member | source | states |
|---|---|---|
| UserTypes.MessageRoundTrip | pkg/user/user.go:22-31 | each of the eight error messages reads back as the error it belongs to, so an error message identifies its error |
| UserTypes.MessageInjective | pkg/user/user.go:22-31 | two errors with the same message are the same error |
| UserTypes.Found | pkg/user/user.go:87 | a fetched record counts as present exactly when its email is non-empty |
| UserTypes.Message | pkg/user/user.go:22-31 | each error carries its fixed message, character for character as the constants give it; that no two errors share one is stated by `UserTypes.MessageRoundTrip` |
| Store.Get | pkg/user/user.go:42 | GetItem returns the record stored under the key, and nothing (an empty attribute set) exactly when the key is absent |
| Store.Scan | pkg/user/user.go:59 | every item a Scan returns is a stored record; on a valid table the items are the records under the keys of the scan order, in that order |
| Store.Put | pkg/user/user.go:96-100 | PutItem overwrites or inserts the record under its own email and nothing else; it keeps the table invariant |
| Store.Delete | pkg/user/user.go:143-151 | DeleteItem removes exactly the given key, whether or not it was present, and keeps the table invariant |
| Store.ScanListsEveryRecord | pkg/user/user.go:56-59 | on a valid table a scan returns every stored record exactly once, in scan order, and no email twice |
| Store.ScanLength | pkg/user/user.go:59-69 | on a valid table a scan returns exactly as many items as there are stored records |
| UserService.Param | pkg/user/user.go:142 | a query parameter that is missing reads as the empty string |
| UserService.FetchUser | pkg/user/user.go:33-53 | a get failure gives `failed to fetch record`; an unmarshal failure gives `failed to unmarshal record`; otherwise the stored record comes back, and an absent key gives the all-empty record rather than an error; on a valid table a non-empty email is found exactly when it is stored |
| UserService.FetchAllUsers | pkg/user/user.go:55-70 | a scan failure gives `failed to fetch record`; an unmarshal failure gives `failed to unmarshal record`; otherwise, on a valid table, the result lists every stored record once in scan order, and an empty table gives an empty list rather than an error |
| UserService.CreateUser | pkg/user/user.go:72-105 | an undecodable body gives `invalid user data` and an email the validator refuses gives `invalid email`, whatever the store holds; any lookup error becomes `failed to fetch record`; `user already exists` is returned, when the lookup succeeds, exactly when a record with a non-empty email is stored under that email; for an absent email a marshal failure gives `fail to marshal record`, a put failure gives `could not update record`, and otherwise it succeeds; every failure leaves the table unchanged; a success returns the decoded record and changes the table at that email only |
| UserService.UpdateUser | pkg/user/user.go:107-139 | an undecodable body gives `invalid user data`; a lookup error is returned as the lookup reported it; there is no email-format check; after a good lookup a marshal failure gives `fail to marshal record` and a put failure gives `could not update record`; it succeeds exactly when the body decodes and no store call fails, whether or not the record existed; a success writes the decoded record at its email and returns it |
| UserService.UpdateUserChecked | pkg/user/user.go:114-121 | with the existence guard in force, an update succeeds only on a record that already exists, and it never adds a key to the table; on an existing record a marshal failure gives `fail to marshal record` and a put failure gives `could not update record` |
| UserService.DeleteUser | pkg/user/user.go:141-156 | the delete succeeds exactly when DeleteItem does, with no existence check, and afterwards the key named by the `email` query parameter is absent; a failure gives `failed to delete record` and leaves the table unchanged |
| UserService.CreateChecksBeforeStore | pkg/user/user.go:73-80 | decoding and the email-format check happen before any store call: their failures do not depend on the table or on which store calls fail |
| UserService.UpdateChecksBeforeStore | pkg/user/user.go:108-112 | an undecodable body is refused before any store call; a decodable body with all store calls succeeding is never refused |
| UserService.LookupErrorReporting | pkg/user/user.go:83-118 | an unmarshal failure during the existence lookup is reported by create as `failed to fetch record` but by update as `failed to unmarshal record` |
| UserService.CreateThenFetch | pkg/user/user.go:96-104 | a record that create has stored reads back unchanged through fetch |
| UserService.CreateTwiceRefused | pkg/user/user.go:83-89 | creating the same record a second time is refused with `user already exists` and changes nothing |
| UserService.CreateOnlyAdds | pkg/user/user.go:83-100 | on a valid table a successful create adds one key that was absent before and keeps every other record |
| UserService.UpdateThenFetch | pkg/user/user.go:129-138 | a record that update has written reads back unchanged through fetch |
| UserService.UpdateInsertsAbsentRecord | pkg/user/user.go:119-121 | the update as written stores a record whose email was not in the table |
| UserService.UpdateCheckedAgreesWhenPresent | pkg/user/user.go:114-121 | the guarded update behaves like the update as written when the record exists, and refuses with `user already exists` when it does not |
| UserService.DeleteIdempotent | pkg/user/user.go:141-156 | deleting the same key twice succeeds and leaves the same table as deleting it once |
| UserService.DeleteThenFetch | pkg/user/user.go:151-155 | after a successful delete, fetching the key gives the all-empty record |
| UserService.DeleteAbsentSucceeds | pkg/user/user.go:151-155 | deleting a key the table does not hold succeeds and leaves the table as it was |
| Handlers.InternalError | pkg/handlers/handlers.go:25 | a service error becomes status 500 with an `error` field that reads back as that error |
| Handlers.GetUser | pkg/handlers/handlers.go:19-36 | the answer is 200 or 500; with a non-empty `email` query parameter it is 200 exactly when the single-record fetch succeeds, carrying that record, and otherwise 500 with that fetch's error message; with no such parameter the same holds for the fetch of all records; on a valid table a 200 carries the stored record (or the empty record) for that email, or the list of every stored record |
| Handlers.CreateUser | pkg/handlers/handlers.go:38-44 | a successful create gives 201 with the created record; a failed create gives 500 with the service's message; the table is what the service left |
| Handlers.UpdateUser | pkg/handlers/handlers.go:46-52 | a successful update gives 200 with the written record; a failed update gives 500 with the service's message; the table is what the service left; with every call succeeding any decodable body, for an existing or a new record, gives 200 with that record |
| Handlers.UpdateUserGuarded | pkg/handlers/handlers.go:46-52 | the same mapping over the guarded update: a 200 answers only an update of a record that already exists |
| Handlers.DeleteUser | pkg/handlers/handlers.go:54-60 | a successful delete gives 200 with no payload; a failed delete gives 400, not 500, with `failed to delete record` |
| Handlers.UnhandledMethod | pkg/handlers/handlers.go:62-64 | any other method gives 405 with the fixed text `Error Method Not Allowed` |
| Handlers.GetUserDispatch | pkg/handlers/handlers.go:20-35 | GetUser fetches one record exactly when the `email` query parameter is non-empty and fetches all records otherwise: with an email the answer does not depend on whether a scan would fail or on the scan order, and without one it does not depend on whether a single-record fetch would fail |
| Handlers.OnlyUnhandledMethodIs405 | pkg/handlers/handlers.go:62-64 | no handler that serves a method answers 405 |
| Handlers.ErrorBodyIdentifiesError | pkg/handlers/handlers.go:39-42 | the `error` field of a 500 from create names exactly the error the service returned |
| Handlers.CreateExample | pkg/handlers/handlers_test.go:148-166 | a well-formed new record on a store where every call succeeds gives 201 with that record, and the table then holds it |
| Handlers.InvalidEmailExample | pkg/handlers/handlers.go:39-42 | an email the validator refuses gives 500 with `invalid email` in the `error` field and leaves the table unchanged, on any table and faults; the service error is the one pkg/user/user.go:78-80 raises and pkg/user/user_test.go:53-65 expects, and the 500 with an error body is the handler's mapping |

Three behaviours of the code that are easy to miss:

- A failed delete answers 400, not 500 (`pkg/handlers/handlers.go:57`).
- The unhandled-method answer carries the bare message string, not an object
  with an `error` field (`pkg/handlers/handlers.go:63`).
- Fetch-all has an unmarshal failure path of its own, with the message
  `failed to unmarshal record` (`pkg/user/user.go:65-67`).

`DeleteUser` reads the key from the query string. The delete test at
`pkg/user/user_test.go:327-331` puts the email in the path parameters, so
that test deletes the empty key. In the model that delete also succeeds.

## Findings

| source | as written | input that shows it | evidently intended | confidence | as-written member | corrected member |
|---|---|---|---|---|---|---|
| pkg/user/user.go:119-121 | the guard `existingUser == nil && len(existingUser.Email) == 0` never holds after a successful lookup, because the lookup always returns a record, so update inserts records that do not exist (and a nil record would be dereferenced) | update of `{"email":"new@example.com","firstName":"New","lastName":"User"}` on an empty table with every store call succeeding returns the record and stores it | refuse the update when the fetched record is nil or its email is empty (an or in place of the and), so update only changes existing records | medium, not executed | UserService.UpdateInsertsAbsentRecord | UserService.UpdateUserChecked |

The guarded update refuses with `user already exists`, the constant the guard
uses. No constant means "user does not exist". `UserService.UpdateUser` models
the code as written and is what the update lemmas describe.
`Handlers.UpdateUser` calls it, as the handler does. `Handlers.UpdateUserGuarded`
is the same handler over the guarded `UserService.UpdateUserChecked`.
`UserService.UpdateCheckedAgreesWhenPresent` shows that the two updates differ
only when the record is absent.

## Left out

- JSON decoding of request bodies: the `encoding/json` library is not part of this model. An operation receives the decoder's verdict as `Option<User>`.
- The email-format validator: its package is not part of this model. It is an arbitrary predicate parameter, and no grammar is assumed.
- Attribute marshalling and unmarshalling (`dynamodbattribute`): library code. Each is one fault flag. An item with wrongly typed attributes appears only as the unmarshal flag. Marshalling three strings cannot fail in practice, but its error branch is kept behind the marshal flag.
- DynamoDB's own request validation (for example, refusing an empty key): not modelled. The store accepts every key, and only the fault flags make calls fail.
- Scan order: real DynamoDB returns items in its own order. The in-memory table appends new keys at the end of the scan order. That choice is the table's, not the service's.
- The table name, the AWS SDK client and request types, and the API Gateway request and response types: plumbing. There is one table, and a request is reduced to its body or its query parameters.
- The JSON text of response bodies, the `Application-Type` header and the second return value of the handlers: `apiResponse` is not part of this model. A response is a status and the value that would be serialised.
- Concurrency: create's check-then-write race is outside a sequential model.
- Store.Scan returns the whole table in one response, and every read sees every earlier write. DynamoDB does neither. A Scan response holds at most one page, and `pkg/user/user.go:59` makes one call and never follows `LastEvaluatedKey`, so a large table comes back truncated. GetItem and Scan are eventually consistent by default. So `UserService.FetchAllUsers` and `Store.ScanListsEveryRecord` listing every record, `UserService.CreateThenFetch`, `UserService.UpdateThenFetch` and create's existence check hold for the in-memory table, not for the deployed store.
- The panic of the nil dereference at `pkg/user/user.go:119`: Dafny has no panics, and the lookup never returns nil without an error. Only the guard's reachable effect is modelled: it never fires.
- Process entry and the routing of HTTP methods to handlers: not part of this model.

=== FILE: handlers.dfy ===
/** The HTTP handlers: each calls one service operation and maps its outcome
    to a status code and a response body. The JSON text of the body and the
    response header are not part of this model; the body is kept as the value
    that would be serialised. */
module Handlers {
  import opened UserTypes
  import opened Store
  import UserService

  const StatusOK := 200
  const StatusCreated := 201
  const StatusBadRequest := 400
  const StatusMethodNotAllowed := 405
  const StatusInternalServerError := 500

  const ErrorMethodNotAllowed := "Error Method Not Allowed"

  /** What a response carries: an error object with its `error` field, one
      record, a list of records, nothing (JSON null), or a bare string. */
  datatype Body =
    | ErrorBody(error: string)
    | UserBody(user: User)
    | UsersBody(users: seq<User>)
    | NullBody
    | TextBody(text: string)

  datatype Response = Response(status: int, body: Body)

  /** A response together with the table the request leaves behind. */
  datatype Exchange = Exchange(response: Response, table: Table)

  /** The response for a service error from fetch, create or update. */
  function InternalError(e: Err): (r: Response)
    ensures r.status == StatusInternalServerError
    ensures r.body.ErrorBody? && ErrOfMessage(r.body.error) == Some(e)
  {
    MessageRoundTrip(e);
    Response(StatusInternalServerError, ErrorBody(Message(e)))
  }

  /** GET: one record when the `email` query parameter is non-empty, every
      record otherwise. */
  function GetUser(t: Table, f: Faults, query: map<string, string>): (r: Response)
    ensures r.status == StatusOK || r.status == StatusInternalServerError
    ensures r.status == StatusInternalServerError <==> r.body.ErrorBody?
    ensures r.status == StatusOK ==>
              (r.body.UserBody? <==> |UserService.Param(query, "email")| > 0)
              && (r.body.UsersBody? <==> UserService.Param(query, "email") == "")
    ensures r.status == StatusInternalServerError ==>
              r.body.error == Message(FailedToFetchRecord) || r.body.error == Message(FailedToUnmarshalRecord)
    ensures r.body.UserBody? && Valid(t) ==>
              var email := UserService.Param(query, "email");
              (email in t.records ==> r.body.user == t.records[email])
              && (email !in t.records ==> r.body.user == EmptyUser)
    ensures r.body.UsersBody? && Valid(t) ==>
              |r.body.users| == |t.records| && forall u :: u in r.body.users <==> u in t.records.Values
    ensures var email := UserService.Param(query, "email");
            |email| > 0 ==>
              var s := UserService.FetchUser(t, f, email);
              && (r.status == StatusOK <==> s.Ok?)
              && (s.Ok? ==> r.body == UserBody(s.value))
              && (s.Fail? ==> r == Response(StatusInternalServerError, ErrorBody(Message(s.err))))
    ensures UserService.Param(query, "email") == "" ==>
              var s := UserService.FetchAllUsers(t, f);
              && (r.status == StatusOK <==> s.Ok?)
              && (s.Ok? ==> r.body == UsersBody(s.value))
              && (s.Fail? ==> r == Response(StatusInternalServerError, ErrorBody(Message(s.err))))
  {
    var email := UserService.Param(query, "email");
    if |email| > 0 then
      match UserService.FetchUser(t, f, email)
      case Fail(e) => InternalError(e)
      case Ok(u) => Response(StatusOK, UserBody(u))
    else
      match UserService.FetchAllUsers(t, f)
      case Fail(e) => InternalError(e)
      case Ok(us) => Response(StatusOK, UsersBody(us))
  }

  /** POST: 201 with the created record, or 500 with the service's error. */
  function CreateUser(t: Table, f: Faults, valid: string -> bool, body: Option<User>): (r: Exchange)
    ensures var s := UserService.CreateUser(t, f, valid, body);
            && r.table == s.table
            && (r.response.status == StatusCreated <==> s.result.Ok?)
            && (s.result.Ok? ==> r.response.body == UserBody(s.result.value))
            && (s.result.Fail? ==> r.response == Response(StatusInternalServerError, ErrorBody(Message(s.result.err))))
    ensures r.response.status == StatusCreated ==> body.Some? && r.response.body == UserBody(body.value)
  {
    var s := UserService.CreateUser(t, f, valid, body);
    match s.result
    case Fail(e) => Exchange(InternalError(e), s.table)
    case Ok(u) => Exchange(Response(StatusCreated, UserBody(u)), s.table)
  }

  /** PUT: 200 with the written record, or 500 with the service's error. The
      service call is the update as written, so a record that did not exist
      is created and answered with 200. */
  function UpdateUser(t: Table, f: Faults, body: Option<User>): (r: Exchange)
    ensures var s := UserService.UpdateUser(t, f, body);
            && r.table == s.table
            && (r.response.status == StatusOK <==> s.result.Ok?)
            && (s.result.Ok? ==> r.response.body == UserBody(s.result.value))
            && (s.result.Fail? ==> r.response == Response(StatusInternalServerError, ErrorBody(Message(s.result.err))))
    ensures r.response.status == StatusOK ==> body.Some? && r.response.body == UserBody(body.value)
    ensures body.Some? && f == NoFaults ==> r.response == Response(StatusOK, UserBody(body.value))
  {
    var s := UserService.UpdateUser(t, f, body);
    match s.result
    case Fail(e) => Exchange(InternalError(e), s.table)
    case Ok(u) => Exchange(Response(StatusOK, UserBody(u)), s.table)
  }

  /** PUT over the update with its existence guard in force: the same
      mapping, but an update of a record that does not exist answers 500 and
      stores nothing. */
  function UpdateUserGuarded(t: Table, f: Faults, body: Option<User>): (r: Exchange)
    ensures var s := UserService.UpdateUserChecked(t, f, body);
            && r.table == s.table
            && (r.response.status == StatusOK <==> s.result.Ok?)
            && (s.result.Ok? ==> r.response.body == UserBody(s.result.value))
            && (s.result.Fail? ==> r.response == Response(StatusInternalServerError, ErrorBody(Message(s.result.err))))
    ensures r.response.status == StatusOK ==>
              body.Some? && body.value.email in t.records && r.response.body == UserBody(body.value)
  {
    var s := UserService.UpdateUserChecked(t, f, body);
    match s.result
    case Fail(e) => Exchange(InternalError(e), s.table)
    case Ok(u) => Exchange(Response(StatusOK, UserBody(u)), s.table)
  }

  /** DELETE: 200 with no payload, or 400 (not 500) with the service's
      error. */
  function DeleteUser(t: Table, f: Faults, query: map<string, string>): (r: Exchange)
    ensures r.response.status == StatusOK || r.response.status == StatusBadRequest
    ensures r.response.status == StatusOK <==> !f.delete
    ensures r.response.status == StatusOK ==> r.response.body == NullBody
    ensures r.response.status == StatusBadRequest ==>
              r.response.body == ErrorBody(Message(FailedToDeleteRecord)) && r.table == t
    ensures r.table == UserService.DeleteUser(t, f, query).table
  {
    var s := UserService.DeleteUser(t, f, query);
    match s.result
    case Fail(e) => Exchange(Response(StatusBadRequest, ErrorBody(Message(e))), s.table)
    case Ok(_) => Exchange(Response(StatusOK, NullBody), s.table)
  }

  /** Any other method: 405 with the fixed message as a bare string. */
  function UnhandledMethod(): (r: Response)
    ensures r.status == StatusMethodNotAllowed
    ensures r.body == TextBody(ErrorMethodNotAllowed)
  {
    Response(StatusMethodNotAllowed, TextBody(ErrorMethodNotAllowed))
  }

  // ---------------------------------------------------------------------
  // Properties
  // ---------------------------------------------------------------------

  /** GetUser fetches one record exactly when the query names a non-empty
      email, and every record otherwise: with an email, whether a scan would
      fail does not matter, and neither does the scan order; without one,
      whether a single-record fetch would fail does not matter. */
  lemma GetUserDispatch(t: Table, t2: Table, f: Faults, b: bool, query: map<string, string>)
    ensures |UserService.Param(query, "email")| > 0 ==>
              GetUser(t, f, query) == GetUser(t, f.(scan := b), query)
    ensures |UserService.Param(query, "email")| > 0 && t2.records == t.records ==>
              GetUser(t, f, query) == GetUser(t2, f, query)
    ensures UserService.Param(query, "email") == "" ==>
              GetUser(t, f, query) == GetUser(t, f.(get := b), query)
  {
  }

  /** Status 405 belongs to the unhandled method alone: no handler that serves
      a method ever answers with it. */
  lemma OnlyUnhandledMethodIs405(t: Table, f: Faults, valid: string -> bool, body: Option<User>, query: map<string, string>)
    ensures GetUser(t, f, query).status != StatusMethodNotAllowed
    ensures CreateUser(t, f, valid, body).response.status != StatusMethodNotAllowed
    ensures UpdateUser(t, f, body).response.status != StatusMethodNotAllowed
    ensures UpdateUserGuarded(t, f, body).response.status != StatusMethodNotAllowed
    ensures DeleteUser(t, f, query).response.status != StatusMethodNotAllowed
  {
  }

  /** A 500 response names the service error exactly: its `error` field reads
      back as the error the service returned. */
  lemma ErrorBodyIdentifiesError(t: Table, f: Faults, valid: string -> bool, body: Option<User>)
    ensures var s := UserService.CreateUser(t, f, valid, body);
            var r := CreateUser(t, f, valid, body).response;
            r.status == StatusInternalServerError ==> ErrOfMessage(r.body.error) == Some(s.result.err)
  {
    var s := UserService.CreateUser(t, f, valid, body);
    if s.result.Fail? {
      MessageRoundTrip(s.result.err);
    }
  }

  /** A well-formed record with a new email, on a store where every call
      succeeds, answers 201 with the submitted record. */
  lemma CreateExample()
    ensures var u := User("alan.oliver@ecs.co.uk", "Alan", "Oliver");
            var r := CreateUser(EmptyTable, NoFaults, e => e == "alan.oliver@ecs.co.uk", Some(u));
            r.response == Response(StatusCreated, UserBody(u))
            && r.table.records == map["alan.oliver@ecs.co.uk" := u]
  {
  }

  /** An email the validator refuses answers 500 with `invalid email`,
      whatever the table holds and whichever calls would fail, and the table
      is untouched. */
  lemma InvalidEmailExample(t: Table, f: Faults)
    ensures var r := CreateUser(t, f, e => e != "invalid-email", Some(User("invalid-email", "test", "test")));
            r.response == Response(StatusInternalServerError, ErrorBody("invalid email"))
            && r.table == t
  {
  }
}

=== FILE: store.dfy ===
/** An in-memory stand-in for the DynamoDB table the service talks to: the
    records keyed by their email, and the order in which a scan returns them.
    Get, Put, Scan and Delete are the four calls the service issues. Whether a
    call fails is decided by the service's fault record, not here. */
module Store {
  import opened UserTypes

  datatype Table = Table(records: map<string, User>, order: seq<string>)

  const EmptyTable := Table(map[], [])

  ghost predicate Distinct(s: seq<string>) {
    forall i, j :: 0 <= i < j < |s| ==> s[i] != s[j]
  }

  /** The table invariant: the scan order lists every key exactly once, and
      every record is stored under its own email. */
  ghost predicate Valid(t: Table) {
    && Distinct(t.order)
    && (forall k :: k in t.order <==> k in t.records)
    && (forall k :: k in t.records ==> t.records[k].email == k)
  }

  /** GetItem: the stored record, or None for an empty attribute set. */
  function Get(t: Table, key: string): (r: Option<User>)
    ensures r.Some? <==> key in t.records
    ensures r.Some? ==> r.value == t.records[key]
  {
    if key in t.records then Some(t.records[key]) else None
  }

  /** PutItem: a full overwrite under the record's email, with no condition.
      A new key joins the end of the scan order; an existing key keeps its
      place. */
  function Put(t: Table, u: User): (r: Table)
    ensures r.records == t.records[u.email := u]
    ensures Valid(t) ==> Valid(r)
  {
    var order := if u.email in t.records then t.order else t.order + [u.email];
    var r := Table(t.records[u.email := u], order);
    assert Valid(t) ==> forall k :: k in r.order <==> k in r.records;
    r
  }

  /** The scan order with every occurrence of `k` removed. */
  function Without(s: seq<string>, k: string): (r: seq<string>)
    ensures forall x :: x in r <==> x in s && x != k
    ensures k !in s ==> r == s
    ensures Distinct(s) ==> Distinct(r)
  {
    if s == [] then []
    else if s[0] == k then Without(s[1..], k)
    else
      var rest := Without(s[1..], k);
      assert Distinct(s) ==> Distinct(s[1..]) && s[0] !in s[1..];
      [s[0]] + rest
  }

  /** DeleteItem: removes the key if present; an absent key is no error. */
  function Delete(t: Table, key: string): (r: Table)
    ensures r.records == t.records - {key}
    ensures key !in r.records
    ensures Valid(t) ==> Valid(r)
  {
    Table(t.records - {key}, Without(t.order, key))
  }

  /** The records stored under `keys`, in that order, skipping keys that hold
      nothing. */
  function ScanKeys(records: map<string, User>, keys: seq<string>): (items: seq<User>)
    ensures |items| <= |keys|
    ensures (forall k :: k in keys ==> k in records) ==>
              |items| == |keys| && forall i :: 0 <= i < |keys| ==> items[i] == records[keys[i]]
    ensures forall u :: u in items ==> exists k :: k in keys && k in records && records[k] == u
    ensures records == map[] ==> items == []
  {
    if keys == [] then []
    else
      var rest := ScanKeys(records, keys[1..]);
      if keys[0] in records then [records[keys[0]]] + rest else rest
  }

  /** Scan: every record, in the table's scan order. */
  function Scan(t: Table): (items: seq<User>)
    ensures forall u :: u in items ==> u in t.records.Values
    ensures Valid(t) ==>
              |items| == |t.order| && forall i :: 0 <= i < |t.order| ==> items[i] == t.records[t.order[i]]
  {
    ScanKeys(t.records, t.order)
  }

  lemma {:induction false} DistinctCardinality(s: seq<string>)
    requires Distinct(s)
    ensures |(set x | x in s)| == |s|
  {
    if s != [] {
      assert Distinct(s[1..]);
      DistinctCardinality(s[1..]);
      assert (set x | x in s) == (set x | x in s[1..]) + {s[0]};
      assert s[0] !in s[1..];
    }
  }

  /** On a valid table a scan returns as many items as there are records. */
  lemma ScanLength(t: Table)
    requires Valid(t)
    ensures |Scan(t)| == |t.records| == |t.order|
  {
    DistinctCardinality(t.order);
    assert t.records.Keys == (set x | x in t.order);
  }

  /** On a valid table a scan lists every stored record exactly once, in
      scan order: each item is the record stored under the key at its
      position, every record is among the items, and no email occurs twice. */
  lemma ScanListsEveryRecord(t: Table)
    requires Valid(t)
    ensures |Scan(t)| == |t.order|
    ensures forall i :: 0 <= i < |t.order| ==> Scan(t)[i] == t.records[t.order[i]]
    ensures forall u :: u in Scan(t) <==> u in t.records.Values
    ensures forall i, j :: 0 <= i < j < |Scan(t)| ==> Scan(t)[i].email != Scan(t)[j].email
  {
  }

  /** Nothing is stored in the empty table, and it satisfies the invariant. */
  lemma EmptyTableValid()
    ensures Valid(EmptyTable)
    ensures Scan(EmptyTable) == []
  {
  }
}

=== FILE: user_service.dfy ===
/** The user-record service: fetch one, fetch all, create, update and delete,
    each a chain of checks that ends the operation at the first failure.

    JSON decoding of the request body is not part of this model: an operation
    that reads a body receives the decoder's verdict, `None` when the body does
    not decode into a record. The email-format validator is not part of this
    model either: it is the parameter `valid`, an arbitrary predicate. */
module UserService {
  import opened UserTypes
  import opened Store

  /** An operation's outcome together with the table it leaves behind. */
  datatype Reply<+T> = Reply(result: Result<T>, table: Table)

  /** The value of a query-string parameter; a missing parameter reads as the
      empty string, as a Go map lookup does. */
  function Param(query: map<string, string>, name: string): (v: string)
    ensures name in query ==> v == query[name]
    ensures name !in query ==> v == ""
  {
    if name in query then query[name] else ""
  }

  /** FetchUser: GetItem by email, then unmarshal the item. An absent key
      unmarshals to the record with every field empty, not to an error. */
  function FetchUser(t: Table, f: Faults, email: string): (r: Result<User>)
    ensures r.Ok? <==> !f.get && !f.unmarshal
    ensures f.get ==> r == Fail(FailedToFetchRecord)
    ensures !f.get && f.unmarshal ==> r == Fail(FailedToUnmarshalRecord)
    ensures r.Ok? && email in t.records ==> r.value == t.records[email]
    ensures r.Ok? && email !in t.records ==> r.value == EmptyUser
    ensures r.Ok? && Valid(t) && email != "" ==> (Found(r.value) <==> email in t.records)
  {
    if f.get then Fail(FailedToFetchRecord)
    else if f.unmarshal then Fail(FailedToUnmarshalRecord)
    else
      match Get(t, email)
      case None => Ok(EmptyUser)
      case Some(u) => Ok(u)
  }

  /** FetchAllUsers: one unpaginated Scan, then unmarshal the list. */
  function FetchAllUsers(t: Table, f: Faults): (r: Result<seq<User>>)
    ensures r.Ok? <==> !f.scan && !f.unmarshal
    ensures f.scan ==> r == Fail(FailedToFetchRecord)
    ensures !f.scan && f.unmarshal ==> r == Fail(FailedToUnmarshalRecord)
    ensures r.Ok? && Valid(t) ==>
              && |r.value| == |t.records| == |t.order|
              && (forall i :: 0 <= i < |t.order| ==> r.value[i] == t.records[t.order[i]])
              && (forall u :: u in r.value <==> u in t.records.Values)
    ensures r.Ok? && t.records == map[] ==> r.value == []
  {
    if f.scan then Fail(FailedToFetchRecord)
    else if f.unmarshal then Fail(FailedToUnmarshalRecord)
    else
      assert Valid(t) ==> |Scan(t)| == |t.records| by {
        if Valid(t) { ScanLength(t); ScanListsEveryRecord(t); }
      }
      Ok(Scan(t))
  }

  /** CreateUser: decode, check the email format, look the email up, refuse an
      existing record, marshal, put. Every failure leaves the table as it was;
      a success stores the decoded record under its email and returns it. */
  function CreateUser(t: Table, f: Faults, valid: string -> bool, body: Option<User>): (r: Reply<User>)
    ensures body.None? ==> r == Reply(Fail(InvalidUserData), t)
    ensures body.Some? && !valid(body.value.email) ==> r == Reply(Fail(InvalidEmail), t)
    ensures body.Some? && valid(body.value.email) && (f.get || f.unmarshal) ==>
              r == Reply(Fail(FailedToFetchRecord), t)
    ensures r.result.Fail? ==> r.table == t
    ensures r.result.Ok? ==>
              && body.Some? && valid(body.value.email)
              && !f.get && !f.unmarshal && !f.marshal && !f.put
              && r.result.value == body.value
              && r.table.records == t.records[body.value.email := body.value]
    ensures Valid(t) ==> Valid(r.table)
    ensures Valid(t) && body.Some? && body.value.email != "" && valid(body.value.email) && !f.get && !f.unmarshal ==>
              ((r.result == Fail(UserAlreadyExists)) <==> body.value.email in t.records)
    ensures body.Some? && valid(body.value.email) && body.value.email !in t.records && !f.get && !f.unmarshal ==>
              && (f.marshal ==> r == Reply(Fail(CouldNotMarshalItem), t))
              && (!f.marshal && f.put ==> r == Reply(Fail(CouldNotDynamoPutItem), t))
              && (!f.marshal && !f.put ==> r.result == Ok(body.value))
    ensures body.Some? && valid(body.value.email) && !f.get && !f.unmarshal ==>
              ((r.result == Fail(UserAlreadyExists)) <==>
                 body.value.email in t.records && Found(t.records[body.value.email]))
  {
    match body
    case None => Reply(Fail(InvalidUserData), t)
    case Some(u) =>
      if !valid(u.email) then Reply(Fail(InvalidEmail), t)
      else
        match FetchUser(t, f, u.email)
        case Fail(_) => Reply(Fail(FailedToFetchRecord), t)
        case Ok(existing) =>
          if Found(existing) then Reply(Fail(UserAlreadyExists), t)
          else if f.marshal then Reply(Fail(CouldNotMarshalItem), t)
          else if f.put then Reply(Fail(CouldNotDynamoPutItem), t)
          else Reply(Ok(u), Put(t, u))
  }

  /** UpdateUser as written. A successful lookup always yields a record, so
      the guard that should refuse a missing record (it tests for a nil record
      AND reads that record's email) can never fire: the update is an upsert.
      A lookup error is passed on as FetchUser reported it. */
  function UpdateUser(t: Table, f: Faults, body: Option<User>): (r: Reply<User>)
    ensures body.None? ==> r == Reply(Fail(InvalidUserData), t)
    ensures body.Some? && f.get ==> r == Reply(Fail(FailedToFetchRecord), t)
    ensures body.Some? && !f.get && f.unmarshal ==> r == Reply(Fail(FailedToUnmarshalRecord), t)
    ensures r.result.Fail? ==> r.table == t
    ensures r.result.Ok? <==> body.Some? && !f.get && !f.unmarshal && !f.marshal && !f.put
    ensures r.result.Ok? ==>
              && r.result.value == body.value
              && r.table.records == t.records[body.value.email := body.value]
    ensures Valid(t) ==> Valid(r.table)
    ensures body.Some? && !f.get && !f.unmarshal ==>
              && (f.marshal ==> r == Reply(Fail(CouldNotMarshalItem), t))
              && (!f.marshal && f.put ==> r == Reply(Fail(CouldNotDynamoPutItem), t))
  {
    match body
    case None => Reply(Fail(InvalidUserData), t)
    case Some(u) =>
      match FetchUser(t, f, u.email)
      case Fail(e) => Reply(Fail(e), t)
      case Ok(_) =>
        if f.marshal then Reply(Fail(CouldNotMarshalItem), t)
        else if f.put then Reply(Fail(CouldNotDynamoPutItem), t)
        else Reply(Ok(u), Put(t, u))
  }

  /** UpdateUser with the existence guard it evidently meant: a lookup that
      finds no record refuses the update (with the error constant the guard
      uses), so an update never creates a record. */
  function UpdateUserChecked(t: Table, f: Faults, body: Option<User>): (r: Reply<User>)
    ensures body.None? ==> r == Reply(Fail(InvalidUserData), t)
    ensures body.Some? && f.get ==> r == Reply(Fail(FailedToFetchRecord), t)
    ensures body.Some? && !f.get && f.unmarshal ==> r == Reply(Fail(FailedToUnmarshalRecord), t)
    ensures r.result.Fail? ==> r.table == t
    ensures r.result.Ok? ==>
              && body.Some? && body.value.email in t.records
              && r.result.value == body.value
              && r.table.records == t.records[body.value.email := body.value]
              && r.table.records.Keys == t.records.Keys
    ensures Valid(t) ==> Valid(r.table)
    ensures Valid(t) && body.Some? && body.value.email != "" ==>
              (r.result.Ok? <==> body.value.email in t.records && !f.get && !f.unmarshal && !f.marshal && !f.put)
    ensures Valid(t) && body.Some? && body.value.email != "" && body.value.email in t.records && !f.get && !f.unmarshal ==>
              && (f.marshal ==> r == Reply(Fail(CouldNotMarshalItem), t))
              && (!f.marshal && f.put ==> r == Reply(Fail(CouldNotDynamoPutItem), t))
  {
    match body
    case None => Reply(Fail(InvalidUserData), t)
    case Some(u) =>
      match FetchUser(t, f, u.email)
      case Fail(e) => Reply(Fail(e), t)
      case Ok(existing) =>
        if !Found(existing) then Reply(Fail(UserAlreadyExists), t)
        else if f.marshal then Reply(Fail(CouldNotMarshalItem), t)
        else if f.put then Reply(Fail(CouldNotDynamoPutItem), t)
        else Reply(Ok(u), Put(t, u))
  }

  /** DeleteUser: delete the key named by the `email` query parameter, with
      no existence check. */
  function DeleteUser(t: Table, f: Faults, query: map<string, string>): (r: Reply<()>)
    ensures r.result.Ok? <==> !f.delete
    ensures r.result.Fail? ==> r == Reply(Fail(FailedToDeleteRecord), t)
    ensures r.result.Ok? ==>
              && Param(query, "email") !in r.table.records
              && r.table.records == t.records - {Param(query, "email")}
    ensures Valid(t) ==> Valid(r.table)
  {
    var email := Param(query, "email");
    if f.delete then Reply(Fail(FailedToDeleteRecord), t)
    else Reply(Ok(()), Delete(t, email))
  }

  // ---------------------------------------------------------------------
  // Properties relating several calls
  // ---------------------------------------------------------------------

  /** Decoding and format checks come before any store call: with a body that
      does not decode, or an email the validator refuses, Create gives the same
      reply whatever the table holds and whichever calls would fail. */
  lemma CreateChecksBeforeStore(t1: Table, t2: Table, f1: Faults, f2: Faults, valid: string -> bool, body: Option<User>)
    requires body.None? || !valid(body.value.email)
    ensures CreateUser(t1, f1, valid, body).result == CreateUser(t2, f2, valid, body).result
    ensures CreateUser(t1, f1, valid, body).table == t1
  {
  }

  /** The same for Update: a body that does not decode is refused before any
      store call. Update runs no email-format check, so a well-formed body
      always reaches the store. */
  lemma UpdateChecksBeforeStore(t1: Table, t2: Table, f1: Faults, f2: Faults, body: Option<User>)
    ensures body.None? ==> UpdateUser(t1, f1, body).result == UpdateUser(t2, f2, body).result
    ensures body.Some? && f1 == NoFaults ==> UpdateUser(t1, f1, body).result.Ok?
  {
  }

  /** The asymmetry between Create and Update: an unmarshal failure of the
      existence lookup is reported by Create as a fetch failure but passed on
      unchanged by Update. */
  lemma LookupErrorReporting(t: Table, f: Faults, valid: string -> bool, u: User)
    requires valid(u.email) && !f.get && f.unmarshal
    ensures CreateUser(t, f, valid, Some(u)).result == Fail(FailedToFetchRecord)
    ensures UpdateUser(t, f, Some(u)).result == Fail(FailedToUnmarshalRecord)
  {
  }

  /** A record stored by Create reads back unchanged through FetchUser. */
  lemma CreateThenFetch(t: Table, f: Faults, g: Faults, valid: string -> bool, u: User)
    requires CreateUser(t, f, valid, Some(u)).result.Ok?
    requires !g.get && !g.unmarshal
    ensures FetchUser(CreateUser(t, f, valid, Some(u)).table, g, u.email) == Ok(u)
  {
  }

  /** Create is not repeatable: once a record with a non-empty email has been
      created, creating it again is refused and changes nothing. */
  lemma CreateTwiceRefused(t: Table, f: Faults, valid: string -> bool, u: User)
    requires CreateUser(t, f, valid, Some(u)).result.Ok?
    requires u.email != ""
    ensures var t' := CreateUser(t, f, valid, Some(u)).table;
            CreateUser(t', f, valid, Some(u)) == Reply(Fail(UserAlreadyExists), t')
  {
  }

  /** On a valid table, a successful Create only ever adds a record: the
      email was absent before (unless it is empty) and every other record is
      kept. */
  lemma CreateOnlyAdds(t: Table, f: Faults, valid: string -> bool, u: User)
    requires Valid(t)
    requires CreateUser(t, f, valid, Some(u)).result.Ok?
    ensures u.email != "" ==> u.email !in t.records
    ensures var t' := CreateUser(t, f, valid, Some(u)).table;
            t'.records.Keys == t.records.Keys + {u.email}
            && forall k :: k in t.records && k != u.email ==> t'.records[k] == t.records[k]
  {
  }

  /** A record written by Update reads back unchanged through FetchUser. */
  lemma UpdateThenFetch(t: Table, f: Faults, g: Faults, u: User)
    requires UpdateUser(t, f, Some(u)).result.Ok?
    requires !g.get && !g.unmarshal
    ensures FetchUser(UpdateUser(t, f, Some(u)).table, g, u.email) == Ok(u)
  {
  }

  /** The update as written inserts a record that did not exist: on the empty
      table with every call succeeding, it returns the record and stores it. */
  lemma UpdateInsertsAbsentRecord()
    ensures var u := User("new@example.com", "New", "User");
            var r := UpdateUser(EmptyTable, NoFaults, Some(u));
            r.result == Ok(u) && r.table.records == map["new@example.com" := u]
  {
  }

  /** The corrected update agrees with the update as written whenever the
      record exists, and refuses to create one when it does not. */
  lemma UpdateCheckedAgreesWhenPresent(t: Table, f: Faults, u: User)
    requires Valid(t) && u.email != ""
    ensures u.email in t.records ==> UpdateUserChecked(t, f, Some(u)) == UpdateUser(t, f, Some(u))
    ensures u.email !in t.records && !f.get && !f.unmarshal ==>
              UpdateUserChecked(t, f, Some(u)) == Reply(Fail(UserAlreadyExists), t)
  {
  }

  /** Delete is idempotent: deleting the same key twice leaves the same table
      as deleting it once, and the second delete also succeeds. */
  lemma DeleteIdempotent(t: Table, f: Faults, query: map<string, string>)
    requires !f.delete
    ensures var once := DeleteUser(t, f, query);
            DeleteUser(once.table, f, query) == once
  {
  }

  /** After a successful delete the record reads back as absent: FetchUser
      returns the empty record, not an error. */
  lemma DeleteThenFetch(t: Table, f: Faults, g: Faults, query: map<string, string>)
    requires !f.delete && !g.get && !g.unmarshal
    ensures FetchUser(DeleteUser(t, f, query).table, g, Param(query, "email")) == Ok(EmptyUser)
  {
  }

  /** A delete of a key the table does not hold succeeds and changes no
      record. */
  lemma DeleteAbsentSucceeds(t: Table, f: Faults, query: map<string, string>)
    requires Valid(t)
    requires !f.delete && Param(query, "email") !in t.records
    ensures DeleteUser(t, f, query) == Reply(Ok(()), t)
  {
  }
}

=== FILE: user_types.dfy ===
/** The record type, the fixed error taxonomy and the fault-injection record
    shared by the store, the user service and the HTTP handlers. */
module UserTypes {

  /** One user record. The email is the table's partition key. */
  datatype User = User(email: string, firstName: string, lastName: string)

  /** What unmarshalling an empty attribute set yields: every field is empty. */
  const EmptyUser := User("", "", "")

  /** The service's existence test: a fetched record counts as present exactly
      when its email is non-empty. */
  predicate Found(u: User) {
    |u.email| != 0
  }

  /** The eight error constants of the user service. */
  datatype Err =
    | CouldNotDynamoPutItem
    | CouldNotMarshalItem
    | FailedToDeleteRecord
    | FailedToFetchRecord
    | FailedToUnmarshalRecord
    | InvalidEmail
    | InvalidUserData
    | UserAlreadyExists

  /** The fixed message each error carries. */
  function Message(e: Err): string {
    match e
    case CouldNotDynamoPutItem => "could not update record"
    case CouldNotMarshalItem => "fail to marshal record"
    case FailedToDeleteRecord => "failed to delete record"
    case FailedToFetchRecord => "failed to fetch record"
    case FailedToUnmarshalRecord => "failed to unmarshal record"
    case InvalidEmail => "invalid email"
    case InvalidUserData => "invalid user data"
    case UserAlreadyExists => "user already exists"
  }

  /** Reads an error back from its message, if the message is one of the eight. */
  function ErrOfMessage(s: string): (r: Option<Err>)
    ensures r.Some? ==> Message(r.value) == s
  {
    if s == "could not update record" then Some(CouldNotDynamoPutItem)
    else if s == "fail to marshal record" then Some(CouldNotMarshalItem)
    else if s == "failed to delete record" then Some(FailedToDeleteRecord)
    else if s == "failed to fetch record" then Some(FailedToFetchRecord)
    else if s == "failed to unmarshal record" then Some(FailedToUnmarshalRecord)
    else if s == "invalid email" then Some(InvalidEmail)
    else if s == "invalid user data" then Some(InvalidUserData)
    else if s == "user already exists" then Some(UserAlreadyExists)
    else None
  }

  /** Every message reads back as the error it came from, so no two errors
      share a message and an error body identifies the error. */
  lemma MessageRoundTrip(e: Err)
    ensures ErrOfMessage(Message(e)) == Some(e)
  {
  }

  /** Distinct errors have distinct messages. */
  lemma MessageInjective(a: Err, b: Err)
    requires Message(a) == Message(b)
    ensures a == b
  {
    MessageRoundTrip(a);
    MessageRoundTrip(b);
  }

  datatype Option<+T> = None | Some(value: T)

  /** An operation's outcome: a value, or one error of the taxonomy. */
  datatype Result<+T> = Ok(value: T) | Fail(err: Err)

  /** Which collaborator calls fail. Each flag stands for one collaborator call of the
      service: GetItem, unmarshalling a fetched item or scan, marshalling a
      record, PutItem, Scan and DeleteItem. */
  datatype Faults = Faults(
    get: bool,
    unmarshal: bool,
    marshal: bool,
    put: bool,
    scan: bool,
    delete: bool)

  /** A store on which every call succeeds. */
  const NoFaults := Faults(false, false, false, false, false, false)
}
